=== FILE: README.md ===
# localforward in Dafny

`localforward` gives remote hosts local names. `add <host>` does four things:

1. It picks the lowest free loopback address `127.0.0.2` … `127.0.0.254`.
2. It appends `<address> <host> # Added by LocalForward` to the hosts file.
3. It aliases the address on the loopback interface.
4. It restarts the SSH tunnel.

`start [profile]` launches one `ssh` process. That process forwards port 80 of every tagged address to port 80 of the host's name on the remote side. The pid file records the process, and `stop` signals it and removes the record. `ssh-profile <name>` stores the default profile that `start` falls back on.

This project models that core as pure functions over immutable state:

- `Text`: whitespace as `str.isspace()` sees it, decimal numerals (`str`/`int`) and `str.split()`.
- `HostTable`: the tagged-line shape and one scanner for it, which reads both the allocation scanner's name (`split()[1]`) and the tunnel scanner's name (regex group 2). It also covers the entry line the tool writes and appending to the file.
- `Allocator`: `get_available_ip` and the append half of `add_host`.
- `Profiles`: the session configuration, and profile resolution with its write-back of the default.
- `ForwardCommand`: the argument vector of the tunnel process.
- `Tunnel`: the pid-file state machine. It covers `start`, `stop`, the restart after `add`, `add` as a whole, and `ssh-profile`.

Some things happen outside the model and arrive as parameters instead:

- the pid of the launched process;
- whether SIGTERM was delivered, found no such process, or was refused;
- whether the alias command succeeded;
- the SSH client configuration, as an opaque lookup from profile name to profile.

A model line is the text of a file line without its terminator. The pattern's `$` matches at the end of that text, so the text is exactly what the two regular expressions see.

Two behaviours of the code that a user would not expect; the model follows the code in both:

- **`start` and a live tunnel.** One would expect `start` to refuse while a live tunnel is recorded, since the pid file holds only one process. The code does not look at the pid file; it overwrites the record and orphans the earlier process (`Tunnel.SecondStartForgetsFirst`).
- **`stop` and the pid file.** One would expect `stop` to remove the pid file in every case. The code catches only `ProcessLookupError`. Any other failure to signal ends the invocation and leaves the file in place (`Tunnel.Stop`, the `Refused` case).

## Model

| member | source | states |
|---|---|---|
| Text.DecimalRoundTrip | localforward.py:53-57 | `int()` of the octet text the allocator prints gives back the octet |
| Text.SplitFirstField | localforward.py:48 | `split()` of a whitespace-free word followed by whitespace puts that word first, followed by the split of the rest |
| HostTable.ParseLineRecognizesTagged | localforward.py:46 | the scanner accepts a line if and only if it has the tag shape: `127.0.0.`, digits, whitespace, a non-empty name without `\n`, whitespace, the tag at the end |
| HostTable.ScanLine | localforward.py:46 | a line the matcher accepts splits into digits, whitespace, a non-empty name without `\n`, whitespace and the tag, and those pieces recompose the line |
| HostTable.ParseLineComplete | localforward.py:46 | every line of the tag shape is accepted, with exactly the digits and name it was composed from |
| HostTable.ParseComposed | localforward.py:46 | a line of the tag layout around valid digits and separators is accepted if and only if its name is non-empty without `\n`, and then yields those digits and that name |
| HostTable.ParseLineSound | localforward.py:113 | every accepted line is a composition of valid pieces, and the entry records those pieces |
| HostTable.FirstFieldIsSecondSplit | localforward.py:46-49 | for every accepted line, the allocation scanner's name is `line.split()[1]`, and that field exists |
| HostTable.ScannersAgreeOnPlainNames | localforward.py:113-115 | when the regex name has no whitespace, `split()[1]` and group 2 are the same host name |
| HostTable.ScannersDisagreeOnSpacedName | localforward.py:48-50 | for a name `a b`, group 2 is `a b` while `split()[1]` is only `a` |
| HostTable.FormatParseRoundTrip | localforward.py:66 | the line written for a whitespace-free name is accepted, and it reads back the same address, octet and name through both scanners |
| HostTable.WrittenLineEntry | localforward.py:46-66 | the tag pattern, applied to the text written for any name, matches it if and only if the name is non-empty without `\n`, and then yields the allocated address, the allocated octet and the name as written |
| HostTable.ManagedEntriesConcat | localforward.py:44-45 | scanning is line by line: the entries of two stretches of lines are the concatenation of their entries |
| HostTable.UntaggedLineIgnored | localforward.py:45-47 | a line outside the tag shape, anywhere in the file, contributes no entry |
| HostTable.UnparsedLineIgnored | localforward.py:111-114 | a line the scanner rejects, anywhere in the file, contributes no entry |
| HostTable.AppendLineRecordsEntry | localforward.py:65-66 | appending keeps every earlier line in order and adds exactly the new line's entry |
| HostTable.AppendAsWrittenMergesLines | localforward.py:65-66 | on a file whose last line `::1 localhost` has no terminator, the appended entry is glued onto it and no entry is recorded |
| Allocator.LowestFree | localforward.py:55-57 | the result lies in the range, is unused when below the end, and every smaller octet of the range is used |
| Allocator.Allocate | localforward.py:42-59 | already configured if and only if some entry's `split()[1]` is the name. Otherwise the lowest unused octet in 2..254, or exhausted if and only if all 253 are used |
| Allocator.AllocatedAddressIsFresh | localforward.py:55-57 | the allocated octet and its address text differ from those of every tagged entry |
| Allocator.AddHostEntry | localforward.py:62-66 | the decision is `Allocate`'s; lines are only ever appended: the allocated host gets its entry line at the end, and otherwise the file is unchanged |
| Allocator.AddedEntryIsLast | localforward.py:62-66 | after an add of a plain name, the entries are the old ones plus the new host's entry |
| Allocator.AddHostEntryIdempotent | localforward.py:50-52 | adding the same plain name again reports it as configured and writes nothing |
| Allocator.FullRangeAppendsNothing | localforward.py:58-59 | with every octet taken, a new name is refused and the file is unchanged |
| Allocator.AddHostEntryKeepsOctetsDistinct | localforward.py:55-57 | if the tagged entries have pairwise distinct octets, they still do after an add. The contract covers every name; it describes the source for names without `\n` or `\r` (see "Line breaks inside a host name" below) |
| Allocator.AddHostEntryKeepsNamesDistinct | localforward.py:50-53 | if the tagged entries have pairwise distinct names, they still do after an add of a plain name |
| Allocator.AddOnPackedTable | localforward.py:55-57 | on a table holding octets 2..n+1 for n names, a new plain name gets octet n+2 |
| Allocator.AddAllPacksLowestOctets | localforward.py:55-57 | distinct plain names added to a table without entries get octets 2, 3, 4, … in order |
| Allocator.FullRangeExhausts | localforward.py:55-59 | after 253 distinct names, a further new name finds no address |
| Allocator.FirstAddsOnEmptyTable | localforward.py:42-66 | on an empty table: first name gets 127.0.0.2, second 127.0.0.3, first name again is already configured |
| Profiles.SetDefault | localforward.py:30-32 | the stored default becomes the given name; the configuration's other keys are unchanged |
| Profiles.Resolve | localforward.py:79-99 | see below |
| Profiles.ResolveLastUsedBecomesDefault | localforward.py:81-87 | once a name is chosen, resolving again without an argument makes the same choice with the same result |
| Profiles.ResolveWithoutAnyName | localforward.py:81-85 | with no argument and no stored default, resolution fails and changes nothing |
| Profiles.ExplicitNameWins | localforward.py:81-82 | with a non-empty argument the result does not depend on the stored default |
| Profiles.DefaultStandsInForArgument | localforward.py:81-82 | without an argument, a stored non-empty default resolves exactly as if it had been given as the argument |
| ForwardCommand.ForwardsAt | localforward.py:112-116 | the i-th tagged entry owns the i-th `-L <address>:80:<name>:80` pair |
| ForwardCommand.BuildCommand | localforward.py:106-118 | see below |
| ForwardCommand.CommandForwardsEachEntry | localforward.py:112-116 | argument 4+2i is `-L` and argument 5+2i is the directive of the i-th tagged entry |
| ForwardCommand.UntaggedLineAddsNoForward | localforward.py:111-116 | a line outside the tag shape, anywhere in the file, leaves the command unchanged |
| ForwardCommand.ForwardsOfAddedHost | localforward.py:113-116 | appending a host's entry line adds exactly its forward pair after all earlier ones, for every non-empty name without `\n` or `\r` |
| ForwardCommand.CommandAfterAddedHost | localforward.py:106-118 | after an add of a non-empty name without `\n` or `\r`, the command is the old one with the new host's forward pair just in front of the target |
| Tunnel.Start | localforward.py:106-124 | see below |
| Tunnel.Stop | localforward.py:142-155 | see below |
| Tunnel.StopThenStart | localforward.py:75-77 | it finishes if and only if the signal is not refused and the stored default profile resolves with an identity file; it then records the new pid and runs the command built from that profile and the current hosts file. A refused signal aborts with nothing changed; a start that fails after the stop leaves no pid recorded |
| Tunnel.RestartAsWritten | localforward.py:71-77 | without a pid file the restart fails; a recorded pid 0 skips it; any other recorded pid is stopped and started again exactly as in `Tunnel.StopThenStart`, so with a pid file it agrees with `Tunnel.Restart` |
| Tunnel.Restart | localforward.py:71-77 | without a pid file, or with pid 0, nothing happens. With a non-zero pid it is the stop-and-start: it finishes, with the tunnel under the new pid, if and only if the signal is not refused and the stored default profile resolves with an identity file. The hosts file and configuration are unchanged |
| Tunnel.AddHost | localforward.py:62-69 | see below |
| Tunnel.SetDefaultProfile | localforward.py:135-139 | only the stored default changes, to the given name |
| Tunnel.StopTwice | localforward.py:142-145 | after a stop that removed the pid file, a second stop reports no active tunnel and changes nothing |
| Tunnel.StopAfterStart | localforward.py:123-124 | a stop right after a start signals exactly the pid that start recorded, and clears it |
| Tunnel.SecondStartForgetsFirst | localforward.py:123-124 | starting twice records only the second process, and a stop then signals only that one |
| Tunnel.SetDefaultThenStart | localforward.py:81-87 | `ssh-profile p` followed by `start` leaves the same state and launches the same command as `start p` |
| Tunnel.AddHostIdempotent | localforward.py:50-52 | a second `add` of a plain name reports it as configured and changes nothing, whatever became of the first add's alias or restart (unless the first found no address) |
| Tunnel.AddedHostIsForwarded | localforward.py:69 | when `add` restarts a running tunnel, the new command's last forward pair, just before the target, is the new host's `-L <address>:80:<name>:80`, for every non-empty name without `\n` or `\r` |
| Tunnel.AddHostRestartsRunningTunnel | localforward.py:62-77 | `add` of a new host with a non-zero pid recorded, a successful alias, a signal that is not refused and a default profile with an identity file finishes with the new address, a restart, the new pid recorded, and the command built over the grown hosts file |
| Tunnel.StartWithStoredProfile | localforward.py:79-124 | a start whose chosen name is in the SSH configuration with an identity file launches the tunnel and records its pid |
| Tunnel.AddAfterStopFailsAsWritten | localforward.py:71-73 | as written, `add` after `stop` records the entry and then fails on the missing pid file |
| Tunnel.AddAfterStopSkipsRestart | localforward.py:71-77 | with the corrected restart, `add` after `stop` records the entry, reports the new address and leaves the tunnel stopped |

Rows whose `states` cell says "see below":

- **Profiles.Resolve**
  - It fails with "profile required" exactly when there is neither an argument nor a stored default, and it then changes nothing.
  - A non-empty argument becomes the stored default before the SSH configuration is consulted.
  - Without an argument the configuration is unchanged.
  - Once a name is chosen: a missing SSH configuration fails with "configuration missing", a name the configuration lacks fails with "profile not found", and otherwise the result is the configuration's entry for that name.
- **ForwardCommand.BuildCommand**
  - It fails if and only if the profile has no identity file.
  - The argv is `ssh -i <first identity file> -v`, then one `-L` pair per tagged entry in file order, then `user@hostname`. Its length is 5 + 2·(number of entries).
- **Tunnel.Start**
  - It succeeds if and only if the profile resolves and has an identity file.
  - On success it records the new pid and reports the command built from the current hosts file.
  - On failure the old pid record stays. A missing profile changes nothing at all.
  - A non-empty argument becomes the default even when a later stage fails.
- **Tunnel.Stop**
  - Without a pid file: "no active tunnel", and nothing changes.
  - It aborts, leaving the pid file in place, if and only if a recorded pid's signal is refused.
  - Otherwise the pid file is removed, with a report of stopped or not running.
  - The hosts file and the configuration are never touched.
- **Tunnel.AddHost**
  - Lines are only appended.
  - Configured and exhausted names leave the state unchanged.
  - An allocated name gets its entry line appended.
  - If the alias command fails, the entry stays and the invocation aborts with the pid record untouched.
  - A finished add reports the new address.
  - After a successful alias, the restart follows. Without a pid file, or with pid 0, the add finishes with the restart skipped and the pid kept. With a non-zero pid and a refused signal, it aborts with the pid file in place. With a non-zero pid, it finishes if and only if the signal is not refused and the stored default profile resolves with an identity file (`Tunnel.AddHostRestartsRunningTunnel` gives the resulting state). When the stop goes through but the start then fails, the pid record is gone and the tunnel stays stopped.

## Findings

| source | as written | input that shows it | evidently intended | confidence | as-written member | corrected member |
|---|---|---|---|---|---|---|
| localforward.py:65-66 | the entry is written in append mode with no check that the file ends with a line break | a hosts file whose last line `::1 localhost` has no trailing newline | the entry stands on a line of its own and is recognised by later scans | high that the merge happens for such a file; not executed | HostTable.AppendAsWrittenMergesLines | HostTable.AppendLineRecordsEntry |
| localforward.py:71-73 | `restart_ssh_tunnel` opens the pid file without checking that it exists | `add <host>` after `stop`, or before any `start` | no tunnel recorded means no restart, as `stop_tunnel` treats a missing pid file | high; not executed | Tunnel.AddAfterStopFailsAsWritten | Tunnel.AddAfterStopSkipsRestart |

Notes on the two findings:

- **The append.** In the first case the glued line no longer starts with `127.0.0.`, so neither scanner sees the host. A second `add` allocates the same octet again.
- **The restart.** In the second case the entry is written and aliased before the failure. Only the restart is lost, and the invocation ends with an uncaught `FileNotFoundError`.
- **What the rest of the model uses.** It uses the corrected `HostTable.AppendLine` and `Tunnel.Restart`. The as-written definitions are `HostTable.AppendAsWritten` and `Tunnel.RestartAsWritten`. `Tunnel.AddHostAsWritten` uses only the second: it appends through `Allocator.AddHostEntry` and so through the corrected `HostTable.AppendLine`, which keeps the restart finding separate from the append finding.

## Left out

- Running shell commands: `execute_command` and the `sudo ifconfig lo0 alias` call are not run. Whether the alias command succeeded is the `aliasOk` parameter, and failure aborts with the entry left in place.
- Privilege elevation: `ensure_sudo` (localforward.py:158-165) re-runs the interpreter under `sudo` with the arguments but without the script path, so for a user who is not root the re-run cannot find a script to execute and the invocation ends with exit status 1 before touching any state. The model describes invocations that already run as root.
- Launching the process: `subprocess.Popen` is not modelled, and its pid is a parameter. A launch failure (no `ssh` binary, say) is not modelled. Output redirection into the log file and `show_logs` (`tail -f`) are I/O only.
- Reading the SSH client configuration: parsing `~/.ssh/config` is not modelled, and the store is an opaque lookup.
  - The model assumes the lookup's `values()` come in the order hostname, user, identity files.
  - A profile lacking one of those keys (an unpacking error in the source) is not modelled.
  - The `except subprocess.CalledProcessError` branch around the lookup is dead code.
- Session configuration file: JSON reading and writing, and the module-level creation of the file, are not modelled. The stored default is a string or `null`; other JSON values are left out.
- Command-line dispatch: argument parsing and `main`'s dispatch, including `help`, are not modelled; each subcommand is one function of `Tunnel`.
- Console output: printed messages are replaced by `Report` values.
- Concurrency: races between concurrent invocations on the shared files are not modelled. The tool takes no locks.
- Pid file contents: they are always an integer written by `start`. Other contents (a `ValueError` from `int()`) are not modelled. What the system does when signalling pid 0 or a negative pid is folded into the `Signal` parameter.
- Unicode digits: `\d` and `int()` also accept non-ASCII decimal digits. The model accepts ASCII digits only.
- `TUNNEL_PROFILE_FILE` is declared but never used.
- Allocator.AddHostEntryIdempotent: holds only for whitespace-free names. For a name with inner whitespace, the allocation scanner compares only the first word (`HostTable.ScannersDisagreeOnSpacedName`), so a second `add` of such a name allocates another address.
- Tunnel.AddHostIdempotent: holds only for whitespace-free names, for the same reason.
- Line breaks inside a host name: the model appends the written entry as one line whatever the name holds. The source writes in text mode and reads with universal newlines, so a name containing `\n` or `\r` becomes several lines that later scans read separately. `Allocator.AddHostEntry` and `Tunnel.AddHost` therefore do not model names with line breaks. The lemmas about the file after an add ask for `HostTable.OneLineName` (non-empty, neither `\n` nor `\r`) or for a whitespace-free name, which excludes both; they match the source. `Allocator.AddHostEntryKeepsOctetsDistinct` is stated for every name and describes the model only when the name holds a line break: there the source can write a second tagged line with an octet already in use.
- Tunnel.AddHostAsWritten: its own contract states only that lines are appended. Its failure after `stop` is stated by `Tunnel.AddAfterStopFailsAsWritten`.

=== FILE: allocator.dfy ===
/**
 Address allocation for a new host: the used last octets are read off the tagged
 entries, a host that already has an entry short-circuits, and otherwise the lowest
 octet of the range that no entry uses is taken and its entry line appended.
 */
module Allocator {
  import opened Text
  import opened HostTable

  /** The allocation range is `range(START_IP, END_IP)`: 2 up to and excluding 255. */
  const StartOctet: nat := 2
  const EndOctet: nat := 255

  datatype Allocation = Allocated(octet: nat) | AlreadyConfigured | Exhausted

  /** The last octets in use, as `int()` reads them; values outside the range
      (`127.0.0.300`) may appear here and simply never block an allocation. */
  function UsedOctets(es: seq<Entry>): set<nat> {
    set e | e in es :: e.Octet()
  }

  /** Some entry already carries `name` as its allocation-scanner name. */
  predicate Configured(es: seq<Entry>, name: string) {
    exists e :: e in es && e.firstField == name
  }

  /** The first octet from `from` upwards that `used` lacks; `EndOctet` when there is none. */
  function LowestFree(used: set<nat>, from: nat): (k: nat)
    requires from <= EndOctet
    ensures from <= k <= EndOctet
    ensures k < EndOctet ==> k !in used
    ensures forall j :: from <= j < k ==> j in used
    decreases EndOctet - from
  {
    if from == EndOctet then EndOctet
    else if from !in used then from
    else LowestFree(used, from + 1)
  }

  /** The allocation decision for `name` against the file's lines. */
  function Allocate(lines: seq<string>, name: string): (r: Allocation)
    ensures r.AlreadyConfigured? <==> Configured(ManagedEntries(lines), name)
    ensures r.Allocated? ==>
      && StartOctet <= r.octet < EndOctet
      && r.octet !in UsedOctets(ManagedEntries(lines))
      && forall j :: StartOctet <= j < r.octet ==> j in UsedOctets(ManagedEntries(lines))
    ensures r.Exhausted? <==>
      && !Configured(ManagedEntries(lines), name)
      && forall j :: StartOctet <= j < EndOctet ==> j in UsedOctets(ManagedEntries(lines))
  {
    var es := ManagedEntries(lines);
    if Configured(es, name) then AlreadyConfigured
    else
      var k := LowestFree(UsedOctets(es), StartOctet);
      if k < EndOctet then Allocated(k) else Exhausted
  }

  /** The new address shares neither its octet nor its address text with any entry. */
  lemma AllocatedAddressIsFresh(lines: seq<string>, name: string)
    requires Allocate(lines, name).Allocated?
    ensures forall e :: e in ManagedEntries(lines) ==>
      && e.Octet() != Allocate(lines, name).octet
      && e.Address() != AddressOf(Allocate(lines, name).octet)
  {
    var k := Allocate(lines, name).octet;
    forall e | e in ManagedEntries(lines)
      ensures e.Octet() != k && e.Address() != AddressOf(k)
    {
      assert e.Octet() in UsedOctets(ManagedEntries(lines));
      if e.Address() == AddressOf(k) {
        assert e.Address()[|LoopbackPrefix|..] == e.digits;
        assert AddressOf(k)[|LoopbackPrefix|..] == Decimal(k);
        DecimalRoundTrip(k);
        assert false;
      }
    }
  }

  datatype Added = Added(allocation: Allocation, hosts: HostFile)

  /** `add_host` up to the append: allocate, then write the entry line when an octet was found. */
  function AddHostEntry(f: HostFile, name: string): (r: Added)
    ensures r.allocation == Allocate(f.lines, name)
    ensures f.lines <= r.hosts.lines
    ensures r.allocation.Allocated? ==> r.hosts.lines == f.lines + [FormatLine(r.allocation.octet, name)]
    ensures !r.allocation.Allocated? ==> r.hosts == f
  {
    match Allocate(f.lines, name)
    case Allocated(k) => Added(Allocated(k), AppendLine(f, FormatLine(k, name)))
    case other => Added(other, f)
  }

  /** A successful add of a plain name records exactly its entry at the end. */
  lemma AddedEntryIsLast(f: HostFile, name: string)
    requires IsField(name)
    requires AddHostEntry(f, name).allocation.Allocated?
    ensures var k := AddHostEntry(f, name).allocation.octet;
            ManagedEntries(AddHostEntry(f, name).hosts.lines)
              == ManagedEntries(f.lines) + [Entry(Decimal(k), name, name)]
  {
    var k := AddHostEntry(f, name).allocation.octet;
    AppendLineRecordsEntry(f, FormatLine(k, name));
    FormatParseRoundTrip(k, name);
  }

  /** Adding the same plain name a second time finds it and writes nothing. */
  lemma AddHostEntryIdempotent(f: HostFile, name: string)
    requires IsField(name)
    ensures var a := AddHostEntry(f, name);
            !a.allocation.Exhausted? ==> AddHostEntry(a.hosts, name) == Added(AlreadyConfigured, a.hosts)
  {
    var a := AddHostEntry(f, name);
    if a.allocation.Allocated? {
      AddedEntryIsLast(f, name);
      var es := ManagedEntries(a.hosts.lines);
      assert es[|es| - 1].firstField == name;
      assert Configured(es, name);
    }
  }

  /** When every octet of the range is taken and the name is new, nothing is appended. */
  lemma FullRangeAppendsNothing(f: HostFile, name: string)
    requires !Configured(ManagedEntries(f.lines), name)
    requires forall j :: StartOctet <= j < EndOctet ==> j in UsedOctets(ManagedEntries(f.lines))
    ensures AddHostEntry(f, name) == Added(Exhausted, f)
  {
  }

  // ----- the table invariant -----

  predicate DistinctOctets(es: seq<Entry>) {
    forall i, j :: 0 <= i < j < |es| ==> es[i].Octet() != es[j].Octet()
  }

  predicate DistinctNames(es: seq<Entry>) {
    forall i, j :: 0 <= i < j < |es| ==> es[i].firstField != es[j].firstField
  }

  /** One address per name survives an add, whatever the name. */
  lemma AddHostEntryKeepsOctetsDistinct(f: HostFile, name: string)
    requires DistinctOctets(ManagedEntries(f.lines))
    ensures DistinctOctets(ManagedEntries(AddHostEntry(f, name).hosts.lines))
  {
    var a := AddHostEntry(f, name);
    if a.allocation.Allocated? {
      var k := a.allocation.octet;
      var line := FormatLine(k, name);
      var before := ManagedEntries(f.lines);
      AppendLineRecordsEntry(f, line);
      WrittenLineEntry(k, name);
      if ReadableName(name) {
        var e := ParseLine(line).value;
        forall x | x in before
          ensures x.Octet() != e.Octet()
        {
          assert x.Octet() in UsedOctets(before);
        }
        DistinctAfterAppend(before, e);
      } else {
        assert EntriesOf(line) == [];
        assert before + [] == before;
      }
    }
  }

  /** One name per address survives an add. */
  lemma AddHostEntryKeepsNamesDistinct(f: HostFile, name: string)
    requires IsField(name)
    requires DistinctNames(ManagedEntries(f.lines))
    ensures DistinctNames(ManagedEntries(AddHostEntry(f, name).hosts.lines))
  {
    var a := AddHostEntry(f, name);
    if a.allocation.Allocated? {
      AddedEntryIsLast(f, name);
      var before := ManagedEntries(f.lines);
      NamesAfterAppend(before, Entry(Decimal(a.allocation.octet), name, name));
    }
  }

  lemma DistinctAfterAppend(es: seq<Entry>, e: Entry)
    requires DistinctOctets(es)
    requires forall x :: x in es ==> x.Octet() != e.Octet()
    ensures DistinctOctets(es + [e])
  {
    var es' := es + [e];
    forall i, j | 0 <= i < j < |es'|
      ensures es'[i].Octet() != es'[j].Octet()
    {
      assert es'[i] == es[i] && es[i] in es;
    }
  }

  lemma NamesAfterAppend(es: seq<Entry>, e: Entry)
    requires DistinctNames(es)
    requires !Configured(es, e.firstField)
    ensures DistinctNames(es + [e])
  {
    var es' := es + [e];
    forall i, j | 0 <= i < j < |es'|
      ensures es'[i].firstField != es'[j].firstField
    {
      assert es'[i] == es[i] && es[i] in es;
    }
  }

  // ----- a run of adds -----

  /** Adds the names one after another. */
  function AddAll(f: HostFile, names: seq<string>): HostFile
    decreases |names|
  {
    if names == [] then f
    else AddHostEntry(AddAll(f, names[..|names| - 1]), names[|names| - 1]).hosts
  }

  predicate Distinct(names: seq<string>) {
    forall i, j :: 0 <= i < j < |names| ==> names[i] != names[j]
  }

  /** With the entry for `used` octets `StartOctet .. StartOctet + n - 1` in place, a new name
      gets octet `StartOctet + n`. */
  lemma LowestFreeAfterPackedRun(used: set<nat>, n: nat)
    requires forall j :: j in used <==> StartOctet <= j < StartOctet + n
    requires StartOctet + n <= EndOctet
    ensures LowestFree(used, StartOctet) == StartOctet + n
  {
    var k := LowestFree(used, StartOctet);
    assert k < StartOctet + n ==> k in used;
    assert k > StartOctet + n ==> StartOctet + n in used;
  }

  /** The entries are exactly one per name, in order, at octets 2, 3, 4, ...; both
      scanners read each entry's name as the listed one. */
  predicate PackedFor(es: seq<Entry>, names: seq<string>) {
    && |es| == |names|
    && forall i :: 0 <= i < |es| ==>
         es[i].Octet() == StartOctet + i && es[i].name == names[i] && es[i].firstField == names[i]
  }

  /** On a packed table the used octets are exactly `StartOctet .. StartOctet + |names| - 1`. */
  lemma PackedUsesLowOctets(es: seq<Entry>, names: seq<string>)
    requires PackedFor(es, names)
    ensures forall j :: j in UsedOctets(es) <==> StartOctet <= j < StartOctet + |names|
  {
    var n := |names|;
    forall j
      ensures j in UsedOctets(es) <==> StartOctet <= j < StartOctet + n
    {
      if StartOctet <= j < StartOctet + n {
        assert es[j - StartOctet] in es;
      }
      if j in UsedOctets(es) {
        var e :| e in es && e.Octet() == j;
        var i :| 0 <= i < n && es[i] == e;
      }
    }
  }

  /** On a packed table only the listed names are configured. */
  lemma PackedConfiguresOnlyNames(es: seq<Entry>, names: seq<string>, name: string)
    requires PackedFor(es, names)
    requires name !in names
    ensures !Configured(es, name)
  {
    forall e | e in es
      ensures e.firstField != name
    {
      var i :| 0 <= i < |es| && es[i] == e;
      assert names[i] in names;
    }
  }

  /** Appending an entry at the next octet keeps a table packed. */
  lemma PackedAppend(es: seq<Entry>, names: seq<string>, e: Entry)
    requires PackedFor(es, names)
    requires e.Octet() == StartOctet + |names| && e.firstField == e.name
    ensures PackedFor(es + [e], names + [e.name])
  {
    var es' := es + [e];
    var names' := names + [e.name];
    forall i | 0 <= i < |es'|
      ensures es'[i].Octet() == StartOctet + i && es'[i].name == names'[i] && es'[i].firstField == names'[i]
    {
      if i < |es| {
        assert es'[i] == es[i] && names'[i] == names[i];
      }
    }
  }

  /** One add on a packed table: the new plain name takes the next octet. */
  lemma AddOnPackedTable(g: HostFile, names: seq<string>, name: string)
    requires PackedFor(ManagedEntries(g.lines), names)
    requires |names| < EndOctet - StartOctet
    requires IsField(name)
    requires name !in names
    ensures AddHostEntry(g, name).allocation == Allocated(StartOctet + |names|)
    ensures PackedFor(ManagedEntries(AddHostEntry(g, name).hosts.lines), names + [name])
  {
    var es := ManagedEntries(g.lines);
    PackedUsesLowOctets(es, names);
    PackedConfiguresOnlyNames(es, names, name);
    LowestFreeAfterPackedRun(UsedOctets(es), |names|);
    assert Allocate(g.lines, name) == Allocated(StartOctet + |names|);
    AddedEntryIsLast(g, name);
    DecimalRoundTrip(StartOctet + |names|);
    PackedAppend(es, names, Entry(Decimal(StartOctet + |names|), name, name));
  }

  /** Distinct plain names added to a file without entries take octets 2, 3, 4, ... in
      order: allocation packs the range from its low end. */
  lemma {:induction false} AddAllPacksLowestOctets(f: HostFile, names: seq<string>)
    requires ManagedEntries(f.lines) == []
    requires |names| <= EndOctet - StartOctet
    requires forall i :: 0 <= i < |names| ==> IsField(names[i])
    requires Distinct(names)
    ensures PackedFor(ManagedEntries(AddAll(f, names).lines), names)
    decreases |names|
  {
    if names != [] {
      var n := |names| - 1;
      var init := names[..n];
      InitKeepsNames(names);
      AddAllPacksLowestOctets(f, init);
      AddOnPackedTable(AddAll(f, init), init, names[n]);
      Text.Around(names, n);
    }
  }

  /** Dropping the last of distinct plain names leaves distinct plain names, without the last. */
  lemma InitKeepsNames(names: seq<string>)
    requires names != []
    requires forall i :: 0 <= i < |names| ==> IsField(names[i])
    requires Distinct(names)
    ensures var init := names[..|names| - 1];
            && (forall i :: 0 <= i < |init| ==> IsField(init[i]))
            && Distinct(init)
            && names[|names| - 1] !in init
  {
    var n := |names| - 1;
    var init := names[..n];
    forall i | 0 <= i < n
      ensures init[i] != names[n]
    {
    }
  }

  /** After distinct names fill all 253 octets, a further new name is refused. */
  lemma FullRangeExhausts(f: HostFile, names: seq<string>, name: string)
    requires ManagedEntries(f.lines) == []
    requires |names| == EndOctet - StartOctet
    requires forall i :: 0 <= i < |names| ==> IsField(names[i])
    requires Distinct(names)
    requires name !in names
    ensures Allocate(AddAll(f, names).lines, name) == Exhausted
  {
    AddAllPacksLowestOctets(f, names);
    var es := ManagedEntries(AddAll(f, names).lines);
    PackedUsesLowOctets(es, names);
    PackedConfiguresOnlyNames(es, names, name);
  }

  /** On a packed table every listed name is configured. */
  lemma PackedConfiguresNames(es: seq<Entry>, names: seq<string>, i: nat)
    requires PackedFor(es, names)
    requires i < |names|
    ensures Configured(es, names[i])
  {
    assert es[i] in es;
  }

  /** On a table without entries, a first name gets 127.0.0.2, a second 127.0.0.3, and
      the first name again is reported as configured with the file left as it was. */
  lemma FirstAddsOnEmptyTable(f: HostFile, first: string, second: string)
    requires ManagedEntries(f.lines) == []
    requires IsField(first) && IsField(second)
    requires first != second
    ensures var a := AddHostEntry(f, first);
            var b := AddHostEntry(a.hosts, second);
            && a.allocation == Allocated(2)
            && b.allocation == Allocated(3)
            && AddHostEntry(b.hosts, first) == Added(AlreadyConfigured, b.hosts)
  {
    var none: seq<string> := [];
    var one: seq<string> := [first];
    var two: seq<string> := [first, second];
    AddOnPackedTable(f, none, first);
    var a := AddHostEntry(f, first);
    assert none + [first] == one;
    AddOnPackedTable(a.hosts, one, second);
    var b := AddHostEntry(a.hosts, second);
    assert one + [second] == two;
    PackedConfiguresNames(ManagedEntries(b.hosts.lines), two, 0);
  }
}

=== FILE: forward_command.dfy ===
/**
 The command line of the SSH tunnel process: the identity option, one local-forward
 option per tagged host entry in file order, and the remote target last.
 */
module ForwardCommand {
  import opened Wrappers
  import opened Errors
  import opened HostTable
  import opened Profiles

  const Ssh: string := "ssh"
  const IdentityOption: string := "-i"
  const VerboseOption: string := "-v"
  const ForwardOption: string := "-L"
  /** Both forwarded ports are 80: `:80:` sits between the address and the name. */
  const PortSeparator: string := ":80:"
  const PortSuffix: string := ":80"

  /** The argument of `-L`: port 80 of the loopback address is forwarded to port 80 of
      the host name as the remote side resolves it. */
  function LocalForward(address: string, name: string): string {
    address + PortSeparator + name + PortSuffix
  }

  /** The argument of `-L` for an entry. */
  function Directive(e: Entry): string {
    LocalForward(e.Address(), e.name)
  }

  /** `-L <directive>` for each entry, in order. */
  function Forwards(es: seq<Entry>): (args: seq<string>)
    ensures |args| == 2 * |es|
  {
    if es == [] then []
    else Forwards(es[..|es| - 1]) + [ForwardOption, Directive(es[|es| - 1])]
  }

  /** The i-th entry owns the i-th pair of forward arguments. */
  lemma {:induction false} ForwardsAt(es: seq<Entry>, i: nat)
    requires i < |es|
    ensures Forwards(es)[2 * i] == ForwardOption
    ensures Forwards(es)[2 * i + 1] == Directive(es[i])
  {
    var n := |es| - 1;
    if i < n {
      ForwardsAt(es[..n], i);
      assert Forwards(es) == Forwards(es[..n]) + [ForwardOption, Directive(es[n])];
    }
  }

  /** `user@hostname`. */
  function Target(p: Profile): string {
    p.user + "@" + p.hostname
  }

  /** The argv of the tunnel process for a profile and the host file's lines; the first
      identity file is required. */
  function BuildCommand(p: Profile, lines: seq<string>): (r: Result<seq<string>, Error>)
    ensures r.Failure? <==> p.identityFiles == []
    ensures r.Failure? ==> r.error == NoIdentityFile
    ensures r.Success? ==>
      var argv := r.value;
      && |argv| == 5 + 2 * |ManagedEntries(lines)|
      && argv[..4] == [Ssh, IdentityOption, p.identityFiles[0], VerboseOption]
      && argv[4..|argv| - 1] == Forwards(ManagedEntries(lines))
      && argv[|argv| - 1] == Target(p)
  {
    if p.identityFiles == [] then Failure(NoIdentityFile)
    else
      var head := [Ssh, IdentityOption, p.identityFiles[0], VerboseOption];
      var fw := Forwards(ManagedEntries(lines));
      var argv := head + fw + [Target(p)];
      assert argv[..4] == head;
      assert argv[4..|argv| - 1] == fw;
      Success(argv)
  }

  /** Between the fixed head and the target, the command holds `-L <directive>` for each
      tagged entry, in file order. */
  lemma CommandForwardsEachEntry(p: Profile, lines: seq<string>, i: nat)
    requires BuildCommand(p, lines).Success?
    requires i < |ManagedEntries(lines)|
    ensures BuildCommand(p, lines).value[4 + 2 * i] == ForwardOption
    ensures BuildCommand(p, lines).value[5 + 2 * i] == Directive(ManagedEntries(lines)[i])
  {
    var argv := BuildCommand(p, lines).value;
    ForwardsAt(ManagedEntries(lines), i);
    assert argv[4 + 2 * i] == argv[4..|argv| - 1][2 * i];
    assert argv[5 + 2 * i] == argv[4..|argv| - 1][2 * i + 1];
  }

  /** A line outside the tag shape, wherever it stands, changes nothing in the command. */
  lemma UntaggedLineAddsNoForward(p: Profile, a: seq<string>, line: string, b: seq<string>)
    requires !IsTagged(line)
    ensures BuildCommand(p, a + [line] + b) == BuildCommand(p, a + b)
  {
    UntaggedLineIgnored(a, line, b);
  }

  /** Appending a host's entry line adds exactly its forward, after all earlier ones,
      for every name the tag pattern can read back. */
  lemma ForwardsOfAddedHost(lines: seq<string>, octet: nat, name: string)
    requires OneLineName(name)
    ensures Forwards(ManagedEntries(lines + [FormatLine(octet, name)]))
            == Forwards(ManagedEntries(lines)) + [ForwardOption, LocalForward(AddressOf(octet), name)]
  {
    AppendLineRecordsEntry(HostFile(lines, true), FormatLine(octet, name));
    WrittenLineEntry(octet, name);
    var es := ManagedEntries(lines);
    var e := ParseLine(FormatLine(octet, name)).value;
    assert (es + [e])[..|es|] == es;
  }

  /** Forwards appended at the end of the list land just in front of the target. */
  lemma CommandWithMoreForwards(p: Profile, lines: seq<string>, grown: seq<string>, extra: seq<string>)
    requires p.identityFiles != []
    requires Forwards(ManagedEntries(grown)) == Forwards(ManagedEntries(lines)) + extra
    ensures var before := BuildCommand(p, lines).value;
            BuildCommand(p, grown).value == before[..|before| - 1] + extra + [Target(p)]
  {
    var head := [Ssh, IdentityOption, p.identityFiles[0], VerboseOption];
    var fw := Forwards(ManagedEntries(lines));
    assert BuildCommand(p, lines).value == head + fw + [Target(p)];
    assert BuildCommand(p, grown).value == head + (fw + extra) + [Target(p)];
    InsertBeforeLast(head, fw, extra, Target(p));
  }

  lemma InsertBeforeLast<T>(head: seq<T>, body: seq<T>, extra: seq<T>, last: T)
    ensures var before := head + body + [last];
            head + (body + extra) + [last] == before[..|before| - 1] + extra + [last]
  {
    var before := head + body + [last];
    assert before[..|before| - 1] == head + body;
  }

  /** Adding a host's entry line puts its forward just in front of the target; the rest
      of the command is unchanged. */
  lemma CommandAfterAddedHost(p: Profile, lines: seq<string>, octet: nat, name: string)
    requires OneLineName(name)
    requires p.identityFiles != []
    ensures var before := BuildCommand(p, lines).value;
            BuildCommand(p, lines + [FormatLine(octet, name)]).value
              == before[..|before| - 1] + [ForwardOption, LocalForward(AddressOf(octet), name), Target(p)]
  {
    var extra := [ForwardOption, LocalForward(AddressOf(octet), name)];
    ForwardsOfAddedHost(lines, octet, name);
    CommandWithMoreForwards(p, lines, lines + [FormatLine(octet, name)], extra);
    var before := BuildCommand(p, lines).value;
    assert before[..|before| - 1] + extra + [Target(p)]
        == before[..|before| - 1] + [ForwardOption, LocalForward(AddressOf(octet), name), Target(p)];
  }
}

=== FILE: host_table.dfy ===
/**
 The host-resolution file as the tool sees it: a sequence of lines, of which only
 the ones shaped `127.0.0.<digits><ws><name><ws># Added by LocalForward` belong to
 the tool. Both scanners of the source (address allocation and tunnel start) accept
 exactly these lines; `ParseLine` extracts, in one pass, everything either of them reads.
 A line here is its text without the line terminator.
 */
module HostTable {
  import opened Wrappers
  import opened Text

  const LoopbackPrefix: string := "127.0.0."
  const Tag: string := "# Added by LocalForward"

  /** The file's lines, and whether its last line carries a terminator. */
  datatype HostFile = HostFile(lines: seq<string>, terminated: bool)

  /** What the scanners extract from a tagged line: the octet's digits (used both as
      `int(group(1))` and inside the address), the tunnel scanner's name (the text
      between the two separators) and the allocation scanner's name (`split()[1]`). */
  datatype Entry = Entry(digits: DigitString, name: string, firstField: string) {
    function Address(): string {
      LoopbackPrefix + digits
    }
    function Octet(): nat {
      DecimalValue(digits)
    }
  }

  // ----- the line shape -----

  function Compose(digits: string, sep1: char, name: string, sep2: char): string {
    LoopbackPrefix + digits + [sep1] + name + [sep2] + Tag
  }

  /** `\d+`, `\s`, `.+` and `\s` of the pattern: digits, one whitespace character, a
      non-empty text without a line break, one whitespace character. */
  predicate ValidPieces(digits: string, sep1: char, name: string, sep2: char) {
    && digits != []
    && AllDigits(digits)
    && IsSpace(sep1)
    && ReadableName(name)
    && IsSpace(sep2)
  }

  /** What `.+` can match: a non-empty text without a line break. */
  predicate ReadableName(name: string) {
    name != [] && '\n' !in name
  }

  /** A name whose written entry stays one file line when read back in text mode, where
      both `\n` and `\r` end a line. */
  predicate OneLineName(name: string) {
    ReadableName(name) && '\r' !in name
  }

  /** The reference definition of a tool-owned line: some choice of pieces composes it. */
  ghost predicate IsTagged(line: string) {
    exists digits, sep1, name, sep2 ::
      ValidPieces(digits, sep1, name, sep2) && Compose(digits, sep1, name, sep2) == line
  }

  lemma PrefixHasNoSpace()
    ensures forall i :: 0 <= i < |LoopbackPrefix| ==> IsFieldChar(LoopbackPrefix[i])
  {
    assert LoopbackPrefix == ['1', '2', '7', '.', '0', '.', '0', '.'];
  }

  /** A tagged line has at least two whitespace-separated fields, and the second is the
      first field of the text that follows the first separator. */
  lemma SplitOfTagged(digits: string, sep1: char, name: string, sep2: char)
    requires ValidPieces(digits, sep1, name, sep2)
    ensures |Split(Compose(digits, sep1, name, sep2))| >= 2
    ensures Split(name + [sep2] + Tag) != []
    ensures Split(Compose(digits, sep1, name, sep2))[1] == Split(name + [sep2] + Tag)[0]
  {
    var head := LoopbackPrefix + digits;
    var rest := name + [sep2] + Tag;
    ComposeAroundSep1(digits, sep1, name, sep2);
    PrefixHasNoSpace();
    assert forall i :: 0 <= i < |head| ==> IsFieldChar(head[i]) by {
      forall i | 0 <= i < |head|
        ensures IsFieldChar(head[i])
      {
        if i >= |LoopbackPrefix| {
          assert head[i] == digits[i - |LoopbackPrefix|];
        }
      }
    }
    SplitFirstField(head, sep1, rest);
    TailHasField(name, sep2);
  }

  /** A tagged line is its address, the first separator, and the rest. */
  lemma ComposeAroundSep1(digits: string, sep1: char, name: string, sep2: char)
    ensures Compose(digits, sep1, name, sep2) == (LoopbackPrefix + digits) + [sep1] + (name + [sep2] + Tag)
  {
  }

  /** The entry of a tagged line. The allocation scanner's name, `split()[1]` of the
      line, is the first field after the first separator (`FirstFieldIsSecondSplit`). */
  function EntryOf(digits: string, sep1: char, name: string, sep2: char): Entry
    requires ValidPieces(digits, sep1, name, sep2)
  {
    TailHasField(name, sep2);
    Entry(digits, name, Split(name + [sep2] + Tag)[0])
  }

  /** The text after the first separator holds a field: at the latest, the tag's `#`. */
  lemma TailHasField(name: string, sep2: char)
    ensures Split(name + [sep2] + Tag) != []
  {
    var rest := name + [sep2] + Tag;
    assert rest[|name| + 1] == '#';
    SplitFindsField(rest, |name| + 1);
  }

  // ----- the scanner -----

  /** What the pattern's groups delimit in a line: the octet digits, the separator after
      them, the name and the separator before the tag. */
  datatype Pieces = Pieces(digits: string, sep1: char, name: string, sep2: char)

  /** The hand-written matcher for the tag pattern, in three stages: the fixed prefix,
      the octet with its separator, the name with the tag at the very end. Each stage
      states what it has matched. */
  function ScanLine(line: string): (r: Option<Pieces>)
    ensures r.Some? ==>
      && ValidPieces(r.value.digits, r.value.sep1, r.value.name, r.value.sep2)
      && Compose(r.value.digits, r.value.sep1, r.value.name, r.value.sep2) == line
  {
    if LoopbackPrefix <= line then
      var r := ScanOctet(line[|LoopbackPrefix|..]);
      PrefixJoin(LoopbackPrefix, line);
      if r.Some? then
        ComposeOfStages(r.value.digits, r.value.sep1, r.value.name, r.value.sep2, line);
        r
      else None
    else None
  }

  /** `\d+\s`: the maximal digit run, which must be followed by a whitespace character. */
  function ScanOctet(rest: string): (r: Option<Pieces>)
    ensures r.Some? ==>
      && ValidPieces(r.value.digits, r.value.sep1, r.value.name, r.value.sep2)
      && r.value.digits + [r.value.sep1] + (r.value.name + [r.value.sep2] + Tag) == rest
  {
    var n := DigitRun(rest);
    if 0 < n < |rest| && IsSpace(rest[n]) then
      Around(rest, n);
      ScanName(rest[..n], rest[n], rest[n + 1..])
    else None
  }

  /** `.+\s# Added by LocalForward$`: the tag ends the line, one whitespace character
      precedes it, and the name in front of that is non-empty without a line break. */
  function ScanName(digits: string, sep1: char, tail: string): (r: Option<Pieces>)
    requires digits != [] && AllDigits(digits) && IsSpace(sep1)
    ensures r.Some? ==>
      && r.value.digits == digits && r.value.sep1 == sep1
      && ValidPieces(digits, sep1, r.value.name, r.value.sep2)
      && r.value.name + [r.value.sep2] + Tag == tail
  {
    var m := |tail| - |Tag| - 1;
    if 1 <= m && tail[m + 1..] == Tag && IsSpace(tail[m]) && '\n' !in tail[..m] then
      Around(tail, m);
      Some(Pieces(digits, sep1, tail[..m], tail[m]))
    else None
  }

  /** The scanner: the entry of a line of the tag shape, nothing for any other line. */
  function ParseLine(line: string): Option<Entry> {
    match ScanLine(line)
    case None => None
    case Some(p) => Some(EntryOf(p.digits, p.sep1, p.name, p.sep2))
  }

  lemma ScanNameComplete(digits: string, sep1: char, name: string, sep2: char)
    requires ValidPieces(digits, sep1, name, sep2)
    ensures ScanName(digits, sep1, name + [sep2] + Tag) == Some(Pieces(digits, sep1, name, sep2))
  {
    Parts(name, sep2, Tag);
  }

  lemma ScanOctetComplete(digits: string, sep1: char, tail: string)
    requires digits != [] && AllDigits(digits) && IsSpace(sep1)
    ensures ScanOctet(digits + [sep1] + tail) == ScanName(digits, sep1, tail)
  {
    DigitRunStopsAt(digits, sep1, tail);
    Parts(digits, sep1, tail);
  }

  /** Every line of the tag shape is accepted, with the pieces it was composed from. */
  lemma ParseLineComplete(digits: string, sep1: char, name: string, sep2: char)
    requires ValidPieces(digits, sep1, name, sep2)
    ensures ParseLine(Compose(digits, sep1, name, sep2)) == Some(EntryOf(digits, sep1, name, sep2))
  {
    var tail := name + [sep2] + Tag;
    var rest := digits + [sep1] + tail;
    ComposeAsStages(digits, sep1, name, sep2);
    PrefixCut(LoopbackPrefix, rest);
    ScanOctetComplete(digits, sep1, tail);
    ScanNameComplete(digits, sep1, name, sep2);
  }

  /** A line composed around valid digits and separators is accepted exactly when its
      name is one `.+` can match, and then the entry carries those digits and that name. */
  lemma ParseComposed(digits: string, sep1: char, name: string, sep2: char)
    requires digits != [] && AllDigits(digits) && IsSpace(sep1) && IsSpace(sep2)
    ensures ParseLine(Compose(digits, sep1, name, sep2)).Some? <==> ReadableName(name)
    ensures ParseLine(Compose(digits, sep1, name, sep2)).Some? ==>
      && ParseLine(Compose(digits, sep1, name, sep2)).value.digits == digits
      && ParseLine(Compose(digits, sep1, name, sep2)).value.name == name
  {
    if ReadableName(name) {
      ParseLineComplete(digits, sep1, name, sep2);
    } else {
      var tail := name + [sep2] + Tag;
      var rest := digits + [sep1] + tail;
      ComposeAsStages(digits, sep1, name, sep2);
      PrefixCut(LoopbackPrefix, rest);
      ScanOctetComplete(digits, sep1, tail);
      Parts(name, sep2, Tag);
      assert ScanName(digits, sep1, tail).None?;
    }
  }

  /** Every line the scanner accepts has the tag shape, and its entry comes from those pieces. */
  lemma ParseLineSound(line: string)
    requires ParseLine(line).Some?
    ensures exists digits, sep1, name, sep2 ::
      && ValidPieces(digits, sep1, name, sep2)
      && Compose(digits, sep1, name, sep2) == line
      && ParseLine(line) == Some(EntryOf(digits, sep1, name, sep2))
  {
    var p := ScanLine(line).value;
    assert && ValidPieces(p.digits, p.sep1, p.name, p.sep2)
           && Compose(p.digits, p.sep1, p.name, p.sep2) == line
           && ParseLine(line) == Some(EntryOf(p.digits, p.sep1, p.name, p.sep2));
  }

  lemma PrefixCut(p: string, r: string)
    ensures p <= p + r
    ensures (p + r)[|p|..] == r
  {
  }

  lemma PrefixJoin(p: string, line: string)
    requires p <= line
    ensures line == p + line[|p|..]
  {
  }

  lemma ComposeOfStages(digits: string, sep1: char, name: string, sep2: char, line: string)
    requires line == LoopbackPrefix + (digits + [sep1] + (name + [sep2] + Tag))
    ensures Compose(digits, sep1, name, sep2) == line
  {
  }

  lemma ComposeAsStages(digits: string, sep1: char, name: string, sep2: char)
    ensures Compose(digits, sep1, name, sep2) == LoopbackPrefix + (digits + [sep1] + (name + [sep2] + Tag))
  {
  }

  /** The scanner recognises exactly the tagged lines. */
  lemma ParseLineRecognizesTagged(line: string)
    ensures ParseLine(line).Some? <==> IsTagged(line)
  {
    if ParseLine(line).Some? {
      ParseLineSound(line);
    }
    if IsTagged(line) {
      var digits, sep1, name, sep2 :|
        ValidPieces(digits, sep1, name, sep2) && Compose(digits, sep1, name, sep2) == line;
      ParseLineComplete(digits, sep1, name, sep2);
    }
  }

  /** The allocation scanner's name is `split()[1]` of the line itself. */
  lemma FirstFieldIsSecondSplit(line: string)
    requires ParseLine(line).Some?
    ensures |Split(line)| >= 2
    ensures ParseLine(line).value.firstField == Split(line)[1]
  {
    ParseLineSound(line);
    var digits, sep1, name, sep2 :|
      && ValidPieces(digits, sep1, name, sep2)
      && Compose(digits, sep1, name, sep2) == line
      && ParseLine(line) == Some(EntryOf(digits, sep1, name, sep2));
    SplitOfTagged(digits, sep1, name, sep2);
  }

  /** For a whitespace-free name both scanners read the same host name. */
  lemma ScannersAgreeOnPlainNames(line: string)
    requires ParseLine(line).Some?
    requires IsField(ParseLine(line).value.name)
    ensures ParseLine(line).value.firstField == ParseLine(line).value.name
  {
    ParseLineSound(line);
    var digits, sep1, name, sep2 :|
      && ValidPieces(digits, sep1, name, sep2)
      && Compose(digits, sep1, name, sep2) == line
      && ParseLine(line) == Some(EntryOf(digits, sep1, name, sep2));
    SplitOfTagged(digits, sep1, name, sep2);
    SplitFirstField(name, sep2, Tag);
  }

  lemma FieldHasNoLineBreak(s: string)
    requires IsField(s)
    ensures '\n' !in s
  {
    assert forall i :: 0 <= i < |s| ==> s[i] != '\n';
  }

  /** A name with inner whitespace makes the scanners disagree: for the line
      `127.0.0.2 a b # Added by LocalForward` the tunnel scanner reads `a b` while the
      allocation scanner reads only `a`. */
  lemma ScannersDisagreeOnSpacedName(digits: string, first: string, second: string)
    requires digits != [] && AllDigits(digits)
    requires IsField(first) && IsField(second)
    ensures ParseLine(Compose(digits, ' ', first + [' '] + second, ' '))
            == Some(Entry(digits, first + [' '] + second, first))
  {
    var name := first + [' '] + second;
    var rest := second + [' '] + Tag;
    FieldHasNoLineBreak(first);
    FieldHasNoLineBreak(second);
    assert ValidPieces(digits, ' ', name, ' ');
    ParseLineComplete(digits, ' ', name, ' ');
    SplitOfTagged(digits, ' ', name, ' ');
    Regroup(first, ' ', second, ' ', Tag);
    SplitFirstField(first, ' ', rest);
    assert Split(name + [' '] + Tag)[0] == first;
  }

  // ----- the line the tool writes -----

  /** `127.0.0.<k>`: the address for a last octet. */
  function AddressOf(octet: nat): string {
    LoopbackPrefix + Decimal(octet)
  }

  /** The entry line appended for a host, `<address> <name> <tag>`. */
  function FormatLine(octet: nat, name: string): string {
    AddressOf(octet) + " " + name + " " + Tag
  }

  /** A line written for a non-empty, whitespace-free name is recognised by both
      scanners and reads back as the same address, octet and name. */
  lemma FormatParseRoundTrip(octet: nat, name: string)
    requires IsField(name)
    ensures ParseLine(FormatLine(octet, name)) == Some(Entry(Decimal(octet), name, name))
    ensures Entry(Decimal(octet), name, name).Address() == AddressOf(octet)
    ensures Entry(Decimal(octet), name, name).Octet() == octet
  {
    assert FormatLine(octet, name) == Compose(Decimal(octet), ' ', name, ' ');
    FieldHasNoLineBreak(name);
    ParseLineComplete(Decimal(octet), ' ', name, ' ');
    ScannersAgreeOnPlainNames(FormatLine(octet, name));
    DecimalRoundTrip(octet);
  }

  /** A line written for any name is read back exactly when `.+` can match the name,
      and then with the allocated address and octet and the name as written. */
  lemma WrittenLineEntry(octet: nat, name: string)
    ensures ParseLine(FormatLine(octet, name)).Some? <==> ReadableName(name)
    ensures ParseLine(FormatLine(octet, name)).Some? ==>
      && ParseLine(FormatLine(octet, name)).value.Address() == AddressOf(octet)
      && ParseLine(FormatLine(octet, name)).value.Octet() == octet
      && ParseLine(FormatLine(octet, name)).value.name == name
  {
    assert FormatLine(octet, name) == Compose(Decimal(octet), ' ', name, ' ');
    ParseComposed(Decimal(octet), ' ', name, ' ');
    DecimalRoundTrip(octet);
  }

  // ----- scanning the file -----

  function EntriesOf(line: string): seq<Entry> {
    match ParseLine(line)
    case Some(e) => [e]
    case None => []
  }

  /** The tagged entries of the file, in file order. */
  function ManagedEntries(lines: seq<string>): (es: seq<Entry>)
    ensures |es| <= |lines|
  {
    if lines == [] then []
    else ManagedEntries(lines[..|lines| - 1]) + EntriesOf(lines[|lines| - 1])
  }

  /** Scanning is compositional: the entries of two stretches of lines, concatenated. */
  lemma {:induction false} ManagedEntriesConcat(a: seq<string>, b: seq<string>)
    ensures ManagedEntries(a + b) == ManagedEntries(a) + ManagedEntries(b)
    decreases |b|
  {
    if b == [] {
      assert a + b == a;
    } else {
      var b' := b[..|b| - 1];
      assert (a + b)[..|a + b| - 1] == a + b';
      ManagedEntriesConcat(a, b');
    }
  }

  lemma ManagedEntriesOfOne(line: string)
    ensures ManagedEntries([line]) == EntriesOf(line)
  {
    var single: seq<string> := [line];
    assert single[..0] == [];
  }

  /** A line the scanner rejects, wherever it stands, contributes no entry. */
  lemma UnparsedLineIgnored(a: seq<string>, line: string, b: seq<string>)
    requires ParseLine(line).None?
    ensures ManagedEntries(a + [line] + b) == ManagedEntries(a + b)
  {
    ManagedEntriesOfOne(line);
    ManagedEntriesConcat(a, [line]);
    ManagedEntriesConcat(a + [line], b);
    ManagedEntriesConcat(a, b);
  }

  /** A line outside the tag shape, wherever it stands, contributes no entry. */
  lemma UntaggedLineIgnored(a: seq<string>, line: string, b: seq<string>)
    requires !IsTagged(line)
    ensures ManagedEntries(a + [line] + b) == ManagedEntries(a + b)
  {
    ParseLineRecognizesTagged(line);
    UnparsedLineIgnored(a, line, b);
  }

  // ----- appending -----

  /** Appends one line. If the last line lacks its terminator, one is written first, so
      the new line stands on its own (see `AppendAsWritten` for the unguarded write). */
  function AppendLine(f: HostFile, line: string): (r: HostFile)
    ensures r.terminated
  {
    HostFile(f.lines + [line], true)
  }

  /** The source's `open(..., 'a').write(line + '\n')`: on a file whose last line has no
      terminator, the new text continues that last line. */
  function AppendAsWritten(f: HostFile, line: string): HostFile {
    if f.terminated || f.lines == [] then HostFile(f.lines + [line], true)
    else HostFile(f.lines[..|f.lines| - 1] + [f.lines[|f.lines| - 1] + line], true)
  }

  /** Appending keeps every earlier line, in order, and adds exactly the entry of the new line. */
  lemma AppendLineRecordsEntry(f: HostFile, line: string)
    ensures f.lines <= AppendLine(f, line).lines
    ensures |AppendLine(f, line).lines| == |f.lines| + 1
    ensures ManagedEntries(AppendLine(f, line).lines) == ManagedEntries(f.lines) + EntriesOf(line)
  {
    assert (f.lines + [line])[..|f.lines|] == f.lines;
  }

  /** On a file whose last line is `::1 localhost` without a terminator, the unguarded
      append glues the entry onto that line and the scanners no longer see it. */
  lemma AppendAsWrittenMergesLines()
    ensures var f := HostFile(["::1 localhost"], false);
            && AppendAsWritten(f, FormatLine(2, "svc")).lines == ["::1 localhost" + FormatLine(2, "svc")]
            && ManagedEntries(AppendAsWritten(f, FormatLine(2, "svc")).lines) == []
  {
    var last: string := "::1 localhost";
    var merged := last + FormatLine(2, "svc");
    var lines: seq<string> := [merged];
    assert |last| == 13 && last[0] == ':';
    assert !(LoopbackPrefix <= merged) by {
      assert LoopbackPrefix[0] == '1';
      assert merged[0] == last[0];
    }
    assert lines[..0] == [];
  }
}

=== FILE: profiles.dfy ===
/**
 Profile selection for `start`: an explicit profile name wins, otherwise the stored
 default is used, otherwise the invocation fails. The chosen name is written back as
 the default before the SSH client configuration is consulted ("last used becomes
 default"). The configuration store itself is an opaque lookup.
 */
module Profiles {
  import opened Wrappers
  import opened Errors

  /** What the SSH client configuration yields for a profile. */
  datatype Profile = Profile(hostname: string, user: string, identityFiles: seq<string>)

  /** The per-user session configuration: the stored default profile (JSON `null` or a
      string) and the file's other keys, which the tool carries along untouched. */
  datatype Config = Config(defaultProfile: Option<string>, others: map<string, string>)

  /** The SSH client configuration: absent, or a lookup from profile name to profile. */
  type ProfileStore = Option<string -> Option<Profile>>

  /** Python truthiness of an optional name: present and non-empty. */
  predicate NamesProfile(name: Option<string>) {
    name.Some? && name.value != ""
  }

  /** `config['default_profile'] = profile`, persisted. */
  function SetDefault(c: Config, profile: string): (r: Config)
    ensures r.defaultProfile == Some(profile)
    ensures r.others == c.others
  {
    c.(defaultProfile := Some(profile))
  }

  /** The name the resolution works with: a non-empty argument, else the stored default.
      An absent argument and an empty one behave alike, both being falsy. */
  function ChosenName(c: Config, arg: string): Option<string> {
    if arg != "" then Some(arg) else c.defaultProfile
  }

  datatype Resolution = Resolution(config: Config, profile: Result<Profile, Error>)

  function Resolve(c: Config, arg: string, store: ProfileStore): (r: Resolution)
    ensures r.config.others == c.others
    ensures arg != "" ==> r.config.defaultProfile == Some(arg)
    ensures arg == "" ==> r.config == c
    ensures r.profile == Failure(ProfileRequired) <==> arg == "" && !NamesProfile(c.defaultProfile)
    ensures r.profile.Success? ==>
      && NamesProfile(ChosenName(c, arg))
      && store.Some?
      && store.value(ChosenName(c, arg).value) == Some(r.profile.value)
    ensures NamesProfile(ChosenName(c, arg)) ==>
      var name := ChosenName(c, arg).value;
      && (store.None? ==> r.profile == Failure(SshConfigMissing))
      && (store.Some? && store.value(name).None? ==> r.profile == Failure(ProfileNotFound))
      && (store.Some? && store.value(name).Some? ==> r.profile == Success(store.value(name).value))
  {
    var chosen := ChosenName(c, arg);
    if !NamesProfile(chosen) then Resolution(c, Failure(ProfileRequired))
    else
      var c' := SetDefault(c, chosen.value);
      match store
      case None => Resolution(c', Failure(SshConfigMissing))
      case Some(lookup) =>
        match lookup(chosen.value)
        case None => Resolution(c', Failure(ProfileNotFound))
        case Some(p) => Resolution(c', Success(p))
  }

  /** Once a name has been chosen, resolving again without an argument makes the same
      choice with the same result and leaves the configuration as it is. */
  lemma ResolveLastUsedBecomesDefault(c: Config, arg: string, store: ProfileStore)
    requires NamesProfile(ChosenName(c, arg))
    ensures Resolve(Resolve(c, arg, store).config, "", store) == Resolve(c, arg, store)
  {
  }

  /** With neither an argument nor a stored default, resolution fails and changes nothing. */
  lemma ResolveWithoutAnyName(c: Config, store: ProfileStore)
    requires !NamesProfile(c.defaultProfile)
    ensures Resolve(c, "", store) == Resolution(c, Failure(ProfileRequired))
  {
  }

  /** An explicit name is used whatever default is stored. */
  lemma ExplicitNameWins(c: Config, other: Option<string>, arg: string, store: ProfileStore)
    requires arg != ""
    ensures Resolve(c, arg, store) == Resolve(c.(defaultProfile := other), arg, store)
  {
  }

  /** Without an argument the stored default is resolved as if it had been given. */
  lemma DefaultStandsInForArgument(c: Config, store: ProfileStore)
    requires NamesProfile(c.defaultProfile)
    ensures Resolve(c, "", store) == Resolve(c, c.defaultProfile.value, store)
  {
  }
}

=== FILE: text.dfy ===
/**
 Character classes, decimal numerals and whitespace splitting, written out the way
 Python's `re` and `str` treat them for `str` values.
 */
module Text {

  /** The characters `str.isspace()` accepts: what `\s` in a `str` pattern matches and
      where `str.split()` with no argument cuts. */
  predicate IsSpace(c: char) {
    || c == ' '
    || ('\t' <= c <= '\r')
    || ('\U{1C}' <= c <= '\U{1F}')
    || c == '\U{85}'
    || c == '\U{A0}'
    || c == '\U{1680}'
    || ('\U{2000}' <= c <= '\U{200A}')
    || c == '\U{2028}'
    || c == '\U{2029}'
    || c == '\U{202F}'
    || c == '\U{205F}'
    || c == '\U{3000}'
  }

  predicate IsFieldChar(c: char) {
    !IsSpace(c)
  }

  /** An ASCII decimal digit. */
  predicate IsDigit(c: char) {
    '0' <= c <= '9'
  }

  predicate AllDigits(s: string) {
    forall i :: 0 <= i < |s| ==> IsDigit(s[i])
  }

  type DigitString = s: string | AllDigits(s)

  /** A non-empty run of non-whitespace characters: one element of `str.split()`. */
  predicate IsField(s: string) {
    s != [] && forall i :: 0 <= i < |s| ==> IsFieldChar(s[i])
  }

  /** Length of the longest prefix of `s` made of digits. */
  function DigitRun(s: string): (n: nat)
    ensures n <= |s|
    ensures forall i :: 0 <= i < n ==> IsDigit(s[i])
    ensures n < |s| ==> !IsDigit(s[n])
  {
    if s == [] || !IsDigit(s[0]) then 0 else 1 + DigitRun(s[1..])
  }

  /** Length of the longest prefix of `s` without whitespace. */
  function FieldRun(s: string): (n: nat)
    ensures n <= |s|
    ensures forall i :: 0 <= i < n ==> IsFieldChar(s[i])
    ensures n < |s| ==> IsSpace(s[n])
  {
    if s == [] || IsSpace(s[0]) then 0 else 1 + FieldRun(s[1..])
  }

  /** A digit run ended by a non-digit is exactly as long as the run. */
  lemma DigitRunStopsAt(a: string, c: char, b: string)
    requires AllDigits(a)
    requires !IsDigit(c)
    ensures DigitRun(a + [c] + b) == |a|
  {
    var s := a + [c] + b;
    Parts(a, c, b);
    assert forall i :: 0 <= i < |a| ==> s[i] == a[i];
  }

  /** A field ended by whitespace is exactly as long as the field. */
  lemma FieldRunStopsAt(a: string, c: char, b: string)
    requires forall i :: 0 <= i < |a| ==> IsFieldChar(a[i])
    requires IsSpace(c)
    ensures FieldRun(a + [c] + b) == |a|
  {
    var s := a + [c] + b;
    Parts(a, c, b);
    assert forall i :: 0 <= i < |a| ==> s[i] == a[i];
  }

  /** A sequence is its part before position `n`, the element at `n`, and the part after. */
  lemma Around<T>(s: seq<T>, n: nat)
    requires n < |s|
    ensures s == s[..n] + [s[n]] + s[n + 1..]
  {
  }

  /** The three parts of `a + [c] + b` can be cut back out of it. */
  lemma Parts<T>(a: seq<T>, c: T, b: seq<T>)
    ensures var s := a + [c] + b;
            && |s| == |a| + 1 + |b|
            && s[..|a|] == a && s[|a|] == c && s[|a| + 1..] == b && s[|a|..] == [c] + b
  {
    var s := a + [c] + b;
    assert s[|a| + 1..] == b;
  }

  /** Regrouping around two single separators. */
  lemma Regroup<T>(a: seq<T>, c: T, b: seq<T>, d: T, t: seq<T>)
    ensures (a + [c] + b) + [d] + t == a + [c] + (b + [d] + t)
  {
  }

  // ----- decimal numerals -----

  function DigitChar(d: nat): (c: char)
    requires d < 10
    ensures IsDigit(c)
  {
    ('0' as int + d) as char
  }

  function DigitValue(c: char): (d: nat)
    requires IsDigit(c)
    ensures d < 10
  {
    c as int - '0' as int
  }

  /** `str(n)` for a natural number: its shortest decimal numeral. */
  function Decimal(n: nat): (s: DigitString)
    ensures s != []
    decreases n
  {
    if n < 10 then [DigitChar(n)] else Decimal(n / 10) + [DigitChar(n % 10)]
  }

  /** `int(s)` for a string of decimal digits; leading zeros are allowed. */
  function DecimalValue(s: DigitString): nat
  {
    if s == [] then 0 else 10 * DecimalValue(s[..|s| - 1]) + DigitValue(s[|s| - 1])
  }

  /** Reading back a printed number gives the number. */
  lemma {:induction false} DecimalRoundTrip(n: nat)
    ensures DecimalValue(Decimal(n)) == n
    decreases n
  {
    if n >= 10 {
      var s := Decimal(n / 10);
      DecimalRoundTrip(n / 10);
      assert (s + [DigitChar(n % 10)])[..|s|] == s;
    }
  }

  // ----- whitespace splitting -----

  /** `str.split()` with no separator: the maximal runs of non-whitespace, in order. */
  function Split(s: string): (fields: seq<string>)
    ensures forall i :: 0 <= i < |fields| ==> IsField(fields[i])
    decreases |s|
  {
    if s == [] then []
    else if IsSpace(s[0]) then Split(s[1..])
    else
      var n := FieldRun(s);
      [s[..n]] + Split(s[n..])
  }

  lemma SplitSkipsSpace(c: char, b: string)
    requires IsSpace(c)
    ensures Split([c] + b) == Split(b)
  {
    assert ([c] + b)[1..] == b;
  }

  /** A field followed by whitespace is the first element of the split. */
  lemma SplitFirstField(a: string, c: char, b: string)
    requires IsField(a)
    requires IsSpace(c)
    ensures Split(a + [c] + b) == [a] + Split(b)
  {
    var s := a + [c] + b;
    FieldRunStopsAt(a, c, b);
    Parts(a, c, b);
    assert s[0] == a[0];
    SplitSkipsSpace(c, b);
  }

  /** A string holding any non-whitespace character splits into at least one field. */
  lemma {:induction false} SplitFindsField(s: string, k: nat)
    requires k < |s|
    requires IsFieldChar(s[k])
    ensures Split(s) != []
    decreases |s|
  {
    if IsSpace(s[0]) {
      assert s[1..][k - 1] == s[k];
      SplitFindsField(s[1..], k - 1);
    }
  }
}

=== FILE: tunnel.dfy ===
/**
 The tunnel's lifecycle as the command-line tool drives it. The only record of a running
 tunnel is the pid file: written with the new process's pid by `start`, removed by
 `stop`, read by the restart that follows `add`. Launching the process, signalling it
 and running the alias command happen outside the model; what they yield (the new pid,
 the signal's fate, whether the alias command succeeded) arrives as a parameter.
 */
module Tunnel {
  import opened Wrappers
  import opened Errors
  import opened Text
  import opened HostTable
  import opened Allocator
  import opened Profiles
  import opened ForwardCommand

  /** What sending SIGTERM to the recorded pid did: it was delivered, there was no such
      process (the one failure the tool catches), or the system refused it (any other
      failure, which is not caught and ends the invocation). */
  datatype Signal = Delivered | NoSuchProcess | Refused

  /** What persists between invocations: the hosts file, the pid file (`None` when the
      file does not exist) and the session configuration. */
  datatype State = State(hosts: HostFile, pid: Option<int>, config: Config)

  /** What an invocation reports when it runs to its end. */
  datatype Report =
    | TunnelStarted(pid: int, argv: seq<string>)
    | TunnelStopped(stopped: int)
    | TunnelWasNotRunning(stale: int)
    | NoActiveTunnel
    | RestartSkipped
    | Restarted(stop: Report, start: Report)
    | HostAlreadyConfigured
    | HostAdded(address: string, restart: Report)
    | DefaultProfileSet(profile: string)

  /** An invocation either finishes with a report or is cut short by an error (an exit
      status 1 or an uncaught exception); in both cases its effects so far persist. */
  datatype Outcome = Done(report: Report) | Aborted(error: Error)

  datatype Step = Step(state: State, outcome: Outcome)

  /** `start [profile]`: resolve the profile, build the command line, launch it (the
      launched process gets `newPid`) and record the pid. The default written back during
      resolution persists even when a later stage fails; the pid file is written only
      once the process exists, so a failure leaves the old record as it was. */
  function Start(s: State, arg: string, store: ProfileStore, newPid: int): (r: Step)
    ensures r.state.hosts == s.hosts
    ensures r.state.config.others == s.config.others
    ensures arg != "" ==> r.state.config.defaultProfile == Some(arg)
    ensures arg == "" ==> r.state.config == s.config
    ensures var chosen := Resolve(s.config, arg, store).profile;
            r.outcome.Done? <==> chosen.Success? && chosen.value.identityFiles != []
    ensures r.outcome.Done? ==>
      && r.state.pid == Some(newPid)
      && r.outcome.report.TunnelStarted?
      && r.outcome.report.pid == newPid
      && r.outcome.report.argv == BuildCommand(Resolve(s.config, arg, store).profile.value, s.hosts.lines).value
    ensures r.outcome.Aborted? ==> r.state.pid == s.pid
    ensures r.outcome == Aborted(ProfileRequired) ==> r.state == s
  {
    var res := Resolve(s.config, arg, store);
    var s' := s.(config := res.config);
    match res.profile
    case Failure(e) => Step(s', Aborted(e))
    case Success(p) =>
      match BuildCommand(p, s.hosts.lines)
      case Failure(e) => Step(s', Aborted(e))
      case Success(argv) => Step(s'.(pid := Some(newPid)), Done(TunnelStarted(newPid, argv)))
  }

  /** `stop`: without a pid file there is nothing to do; otherwise the recorded process is
      signalled and the pid file removed, unless the signal failed in a way the tool
      does not catch. */
  function Stop(s: State, signal: Signal): (r: Step)
    ensures r.state.hosts == s.hosts && r.state.config == s.config
    ensures s.pid.None? ==> r == Step(s, Done(NoActiveTunnel))
    ensures r.outcome.Aborted? <==> s.pid.Some? && signal == Refused
    ensures r.outcome.Aborted? ==> r.state == s && r.outcome.error == SignalFailed
    ensures r.outcome.Done? ==> r.state.pid.None?
    ensures s.pid.Some? && signal == Delivered ==> r.outcome == Done(TunnelStopped(s.pid.value))
    ensures s.pid.Some? && signal == NoSuchProcess ==> r.outcome == Done(TunnelWasNotRunning(s.pid.value))
  {
    match s.pid
    case None => Step(s, Done(NoActiveTunnel))
    case Some(p) =>
      match signal
      case Refused => Step(s, Aborted(SignalFailed))
      case Delivered => Step(s.(pid := None), Done(TunnelStopped(p)))
      case NoSuchProcess => Step(s.(pid := None), Done(TunnelWasNotRunning(p)))
  }

  /** Stop the recorded tunnel, then start it again with the stored default profile. */
  function StopThenStart(s: State, signal: Signal, store: ProfileStore, newPid: int): (r: Step)
    requires s.pid.Some?
    ensures r.state.hosts == s.hosts && r.state.config == s.config
    ensures r.outcome.Done? ==>
      && r.state.pid == Some(newPid)
      && r.outcome.report.Restarted?
      && r.outcome.report.stop.TunnelStopped? == (signal == Delivered)
      && r.outcome.report.start.TunnelStarted?
      && r.outcome.report.start.pid == newPid
      && Resolve(s.config, "", store).profile.Success?
      && Resolve(s.config, "", store).profile.value.identityFiles != []
      && r.outcome.report.start.argv == BuildCommand(Resolve(s.config, "", store).profile.value, s.hosts.lines).value
    ensures var chosen := Resolve(s.config, "", store).profile;
            r.outcome.Done? <==> signal != Refused && chosen.Success? && chosen.value.identityFiles != []
    ensures signal == Refused ==> r == Step(s, Aborted(SignalFailed))
    ensures signal != Refused && r.outcome.Aborted? ==> r.state.pid.None?
  {
    var stopped := Stop(s, signal);
    if stopped.outcome.Aborted? then stopped
    else
      var started := Start(stopped.state, "", store, newPid);
      if started.outcome.Aborted? then started
      else Step(started.state, Done(Restarted(stopped.outcome.report, started.outcome.report)))
  }

  /** `restart_ssh_tunnel` as written: it opens the pid file unconditionally, so without
      one it fails; a recorded pid of 0 means "no tunnel" and skips the restart. */
  function RestartAsWritten(s: State, signal: Signal, store: ProfileStore, newPid: int): (r: Step)
    ensures s.pid.None? ==> r == Step(s, Aborted(PidFileMissing))
    ensures s.pid == Some(0) ==> r == Step(s, Done(RestartSkipped))
    ensures s.pid.Some? && s.pid.value != 0 ==> r == StopThenStart(s, signal, store, newPid)
    ensures s.pid.Some? ==> r == Restart(s, signal, store, newPid)
  {
    match s.pid
    case None => Step(s, Aborted(PidFileMissing))
    case Some(p) => if p == 0 then Step(s, Done(RestartSkipped)) else StopThenStart(s, signal, store, newPid)
  }

  /** The restart with a missing pid file read as "no tunnel running": a tunnel is
      restarted exactly when a non-zero pid is on record, by a stop and a start with the
      stored default profile; the hosts file and the configuration stay as they were. */
  function Restart(s: State, signal: Signal, store: ProfileStore, newPid: int): (r: Step)
    ensures s.pid.None? || s.pid == Some(0) ==> r == Step(s, Done(RestartSkipped))
    ensures r.state.hosts == s.hosts && r.state.config == s.config
    ensures s.pid.Some? && s.pid.value != 0 ==> r == StopThenStart(s, signal, store, newPid)
    ensures s.pid.Some? && s.pid.value != 0 ==>
      var chosen := Resolve(s.config, "", store).profile;
      r.outcome.Done? <==> signal != Refused && chosen.Success? && chosen.value.identityFiles != []
    ensures r.outcome.Done? && r.outcome.report != RestartSkipped ==>
      && s.pid.Some? && s.pid.value != 0
      && r.state.pid == Some(newPid)
      && r.outcome.report.Restarted?
    ensures r.outcome.Aborted? ==> r.state.pid == s.pid || r.state.pid.None?
  {
    match s.pid
    case None => Step(s, Done(RestartSkipped))
    case Some(p) => if p == 0 then Step(s, Done(RestartSkipped)) else StopThenStart(s, signal, store, newPid)
  }

  /** The report of `add` once the entry is written and aliased: the restart's own
      failure, or the new address with what the restart did. */
  function Announce(address: string, restarted: Step): (r: Step)
    ensures r.state == restarted.state
    ensures restarted.outcome.Aborted? ==> r.outcome == restarted.outcome
    ensures restarted.outcome.Done? ==> r.outcome == Done(HostAdded(address, restarted.outcome.report))
  {
    if restarted.outcome.Aborted? then restarted
    else Step(restarted.state, Done(HostAdded(address, restarted.outcome.report)))
  }

  /** `add <host>`: allocate an address, append the entry line, alias the address on the
      loopback interface (`aliasOk` is whether that command succeeded) and restart the
      tunnel so that it forwards the new host too. */
  function AddHost(s: State, name: string, aliasOk: bool, signal: Signal, store: ProfileStore, newPid: int): (r: Step)
    ensures s.hosts.lines <= r.state.hosts.lines
    ensures r.state.config == s.config
    ensures var a := Allocate(s.hosts.lines, name);
            && (a.AlreadyConfigured? ==> r == Step(s, Done(HostAlreadyConfigured)))
            && (a.Exhausted? ==> r == Step(s, Aborted(NoAvailableIp)))
            && (a.Allocated? ==> r.state.hosts == AppendLine(s.hosts, FormatLine(a.octet, name)))
            && (a.Allocated? && !aliasOk ==> r.outcome == Aborted(AliasFailed) && r.state.pid == s.pid)
            && (r.outcome.Done? && a.Allocated? ==>
                  r.outcome.report.HostAdded? && r.outcome.report.address == AddressOf(a.octet))
    ensures var a := Allocate(s.hosts.lines, name);
            var chosen := Resolve(s.config, "", store).profile;
            a.Allocated? && aliasOk ==>
              && (s.pid.None? || s.pid == Some(0) ==>
                    r.outcome == Done(HostAdded(AddressOf(a.octet), RestartSkipped)) && r.state.pid == s.pid)
              && (s.pid.Some? && s.pid.value != 0 && signal == Refused ==>
                    r.outcome == Aborted(SignalFailed) && r.state.pid == s.pid)
              && (s.pid.Some? && s.pid.value != 0 ==>
                    (r.outcome.Done? <==> signal != Refused && chosen.Success? && chosen.value.identityFiles != []))
              && (s.pid.Some? && s.pid.value != 0 && signal != Refused && r.outcome.Aborted? ==>
                    r.state.pid.None?)
  {
    var a := AddHostEntry(s.hosts, name);
    match a.allocation
    case AlreadyConfigured => Step(s, Done(HostAlreadyConfigured))
    case Exhausted => Step(s, Aborted(NoAvailableIp))
    case Allocated(k) =>
      var s' := s.(hosts := a.hosts);
      if !aliasOk then Step(s', Aborted(AliasFailed))
      else Announce(AddressOf(k), Restart(s', signal, store, newPid))
  }

  /** `add <host>` with the restart as written. */
  function AddHostAsWritten(s: State, name: string, aliasOk: bool, signal: Signal, store: ProfileStore, newPid: int): (r: Step)
    ensures s.hosts.lines <= r.state.hosts.lines
  {
    var a := AddHostEntry(s.hosts, name);
    match a.allocation
    case AlreadyConfigured => Step(s, Done(HostAlreadyConfigured))
    case Exhausted => Step(s, Aborted(NoAvailableIp))
    case Allocated(k) =>
      var s' := s.(hosts := a.hosts);
      if !aliasOk then Step(s', Aborted(AliasFailed))
      else Announce(AddressOf(k), RestartAsWritten(s', signal, store, newPid))
  }

  /** `ssh-profile <name>`: store the default profile; nothing else changes. */
  function SetDefaultProfile(s: State, profile: string): (r: Step)
    ensures r.state.hosts == s.hosts && r.state.pid == s.pid
    ensures r.state.config.defaultProfile == Some(profile)
    ensures r.state.config.others == s.config.others
    ensures r.outcome == Done(DefaultProfileSet(profile))
  {
    Step(s.(config := SetDefault(s.config, profile)), Done(DefaultProfileSet(profile)))
  }

  // ----- properties of sequences of invocations -----

  /** After a stop that removed the pid file, a second stop finds nothing to do. */
  lemma StopTwice(s: State, first: Signal, second: Signal)
    requires Stop(s, first).outcome.Done?
    ensures var t := Stop(s, first).state;
            Stop(t, second) == Step(t, Done(NoActiveTunnel))
  {
  }

  /** A stop right after a start signals exactly the process that start launched. */
  lemma StopAfterStart(s: State, arg: string, store: ProfileStore, newPid: int)
    requires Start(s, arg, store, newPid).outcome.Done?
    ensures var t := Stop(Start(s, arg, store, newPid).state, Delivered);
            t.outcome == Done(TunnelStopped(newPid)) && t.state.pid.None?
  {
  }

  /** A start does not look at the pid file: starting twice records only the second
      process, and a stop then signals only that one. */
  lemma SecondStartForgetsFirst(s: State, store: ProfileStore, first: int, second: int)
    requires Start(s, "", store, first).outcome.Done?
    ensures var t := Start(Start(s, "", store, first).state, "", store, second);
            && t.outcome.Done?
            && t.state.pid == Some(second)
            && Stop(t.state, Delivered).outcome == Done(TunnelStopped(second))
  {
    var t1 := Start(s, "", store, first);
    assert t1.state.config == s.config && t1.state.hosts == s.hosts;
  }

  /** Storing a default and then starting without a profile is the same as starting with
      that profile: both leave the same default behind and launch the same command. */
  lemma SetDefaultThenStart(s: State, profile: string, store: ProfileStore, newPid: int)
    requires profile != ""
    ensures Start(SetDefaultProfile(s, profile).state, "", store, newPid) == Start(s, profile, store, newPid)
  {
    var c := SetDefaultProfile(s, profile).state.config;
    assert ChosenName(c, "") == ChosenName(s.config, profile);
    assert SetDefault(c, profile) == SetDefault(s.config, profile);
  }

  /** Adding a plain name a second time reports it as configured and changes nothing,
      whatever became of the first add's alias command or restart, unless the first add
      found no free address. */
  lemma AddHostIdempotent(s: State, name: string, aliasOk: bool, signal: Signal, store: ProfileStore, newPid: int,
                          aliasOk': bool, signal': Signal, newPid': int)
    requires IsField(name)
    requires AddHost(s, name, aliasOk, signal, store, newPid).outcome != Aborted(NoAvailableIp)
    ensures var t := AddHost(s, name, aliasOk, signal, store, newPid).state;
            AddHost(t, name, aliasOk', signal', store, newPid') == Step(t, Done(HostAlreadyConfigured))
  {
    var t := AddHost(s, name, aliasOk, signal, store, newPid).state;
    AddHostEntryIdempotent(s.hosts, name);
    var a := AddHostEntry(s.hosts, name);
    assert a.allocation.Allocated? ==> t.hosts == a.hosts;
    assert a.allocation.AlreadyConfigured? ==> t == s;
    assert Allocate(t.hosts.lines, name).AlreadyConfigured?;
  }

  /** When `add` restarts a running tunnel, the new command forwards the new host: its
      `-L` pair stands last, just in front of the remote target. */
  lemma AddedHostIsForwarded(s: State, name: string, signal: Signal, store: ProfileStore, newPid: int)
    requires OneLineName(name)
    requires var r := AddHost(s, name, true, signal, store, newPid);
             r.outcome.Done? && r.outcome.report.HostAdded? && r.outcome.report.restart.Restarted?
    ensures var report := AddHost(s, name, true, signal, store, newPid).outcome.report;
            var argv := report.restart.start.argv;
            && |argv| >= 7
            && argv[|argv| - 3] == ForwardOption
            && argv[|argv| - 2] == LocalForward(report.address, name)
  {
    var a := Allocate(s.hosts.lines, name);
    var k := a.octet;
    var s' := s.(hosts := AppendLine(s.hosts, FormatLine(k, name)));
    var restarted := Restart(s', signal, store, newPid);
    assert AddHost(s, name, true, signal, store, newPid) == Announce(AddressOf(k), restarted);
    var stopped := Stop(s', signal).state;
    assert stopped.hosts.lines == s.hosts.lines + [FormatLine(k, name)];
    var p := Resolve(stopped.config, "", store).profile.value;
    var argv := restarted.outcome.report.start.argv;
    assert argv == BuildCommand(p, s.hosts.lines + [FormatLine(k, name)]).value;
    ForwardsOfAddedHost(s.hosts.lines, k, name);
    var fw := Forwards(ManagedEntries(s.hosts.lines + [FormatLine(k, name)]));
    assert argv[4..|argv| - 1] == fw;
    assert fw[|fw| - 2..] == [ForwardOption, LocalForward(AddressOf(k), name)];
    assert argv[|argv| - 3] == fw[|fw| - 2];
    assert argv[|argv| - 2] == fw[|fw| - 1];
  }

  /** `add` of a new host while a tunnel is recorded restarts it: the stop goes through,
      the stored default profile starts a new process over the grown hosts file, and the
      new pid is recorded. */
  lemma AddHostRestartsRunningTunnel(s: State, name: string, signal: Signal, store: ProfileStore, newPid: int)
    requires s.pid.Some? && s.pid.value != 0
    requires Allocate(s.hosts.lines, name).Allocated?
    requires signal != Refused
    requires Resolve(s.config, "", store).profile.Success?
    requires Resolve(s.config, "", store).profile.value.identityFiles != []
    ensures var r := AddHost(s, name, true, signal, store, newPid);
            var k := Allocate(s.hosts.lines, name).octet;
            && r.state.pid == Some(newPid)
            && r.outcome.Done?
            && r.outcome.report.HostAdded?
            && r.outcome.report.address == AddressOf(k)
            && r.outcome.report.restart.Restarted?
            && r.outcome.report.restart.start.argv
               == BuildCommand(Resolve(s.config, "", store).profile.value, s.hosts.lines + [FormatLine(k, name)]).value
  {
    var k := Allocate(s.hosts.lines, name).octet;
    var s' := s.(hosts := AppendLine(s.hosts, FormatLine(k, name)));
    assert AddHost(s, name, true, signal, store, newPid) == Announce(AddressOf(k), Restart(s', signal, store, newPid));
  }

  /** A start whose chosen profile is in the store with an identity file launches the
      tunnel and records its pid. */
  lemma StartWithStoredProfile(s: State, arg: string, store: ProfileStore, newPid: int)
    requires NamesProfile(ChosenName(s.config, arg))
    requires store.Some? && store.value(ChosenName(s.config, arg).value).Some?
    requires store.value(ChosenName(s.config, arg).value).value.identityFiles != []
    ensures Start(s, arg, store, newPid).outcome.Done?
    ensures Start(s, arg, store, newPid).state.pid == Some(newPid)
  {
  }

  // ----- a stopped tunnel and `add` -----

  /** As written, `add` after `stop` (or before any `start`) writes the entry and aliases
      the address, then fails on the missing pid file. */
  lemma AddAfterStopFailsAsWritten(s: State, name: string, stopSignal: Signal, signal: Signal,
                                   store: ProfileStore, newPid: int)
    requires Stop(s, stopSignal).outcome.Done?
    requires Allocate(s.hosts.lines, name).Allocated?
    ensures var t := Stop(s, stopSignal).state;
            var r := AddHostAsWritten(t, name, true, signal, store, newPid);
            && r.outcome == Aborted(PidFileMissing)
            && r.state.hosts.lines == s.hosts.lines + [FormatLine(Allocate(s.hosts.lines, name).octet, name)]
  {
  }

  /** With the corrected restart, `add` after `stop` records the host and leaves the
      tunnel stopped. */
  lemma AddAfterStopSkipsRestart(s: State, name: string, stopSignal: Signal, signal: Signal,
                                 store: ProfileStore, newPid: int)
    requires Stop(s, stopSignal).outcome.Done?
    requires Allocate(s.hosts.lines, name).Allocated?
    ensures var t := Stop(s, stopSignal).state;
            var k := Allocate(s.hosts.lines, name).octet;
            var r := AddHost(t, name, true, signal, store, newPid);
            && r.outcome == Done(HostAdded(AddressOf(k), RestartSkipped))
            && r.state == t.(hosts := AppendLine(t.hosts, FormatLine(k, name)))
            && r.state.pid.None?
  {
  }
}

=== FILE: wrappers.dfy ===
/** Failure-carrying wrappers shared by every module of the model. */
module Wrappers {

  /** A value that may be absent: a missing file, an unset configuration key. */
  datatype Option<+T> = None | Some(value: T)

  /** Either a computed value or the error that aborted the computation. */
  datatype Result<+T, +E> = Success(value: T) | Failure(error: E)
}

/** Every way an invocation of the tool can abort (non-zero exit). */
module Errors {

  datatype Error =
    | ProfileRequired   // no profile argument and no stored default
    | SshConfigMissing  // the SSH client configuration file does not exist
    | ProfileNotFound   // the profile lookup found nothing
    | NoIdentityFile    // the profile lists no identity file
    | NoAvailableIp     // every octet of the allocation range is in use
    | AliasFailed       // the loopback alias command exited non-zero
    | PidFileMissing    // the pid record was read but does not exist
    | SignalFailed      // the termination signal failed for a reason other than a missing process
}
